=== FILE: README.md ===
# linkerd-poc service core in Dafny

The model covers the pure logic of a small diagnostic HTTP service. The service checks that a service mesh (Linkerd) passes identities along. It reports its own identity and echoes the mesh headers (`l5d-*`) that the sidecar proxy adds to each request. It can also call a downstream copy of itself and wrap that copy's report. All of this logic lives in `app/main.go`.

Modules, one per concept, leaves first:

- `Fallible` (`fallible.dfy`): `Try<T>`, a value or an error message. This is Go's `(value, error)` pair.
- `Ascii` (`ascii.dfy`): ASCII lower-casing of header names.
- `Strings` (`strings.dfy`): `HasPrefix` and `Join` with Go's semantics. It also has `Split`, which shows what `Join` keeps. `Split` undoes `Join` on at least one value when no value contains the separator's first character. For a two-character separator with distinct characters, such as ", ", it is enough that no value contains the separator itself.
- `Env` (`env.dfy`): the environment as an immutable `map<string, string>` snapshot, `GetEnv` with its fallback rule, and `GetSelfInfo`.
- `Headers` (`headers.dfy`): the inbound header map (`map<string, seq<string>>`), the mesh header filter and the case-insensitive `Get`.
- `Handlers` (`handlers.dfy`): the records `CallerInfo`, `Response` and `CallEchoResponse`, and a reply type. It has the "/" handler and the "/call-echo" handler. Their network and JSON steps are inputs.

The mesh header filter is defined twice. `ExtractLinkerdHeaders` is a map comprehension. `ExtractLinkerdHeadersLoop` repeats the handler's loop over the received fields, which visits them in no fixed order. Both are proved to meet the same description, `IsMeshViewOf`. `MeshViewUnique` shows that this description allows only one map.

The host name lookup is an input of type `Try<string>`. Outbound I/O is also passed in, as three functions: `get` (the GET), `readAll` (reading the body) and `unmarshal` (decoding JSON).

## Model

| member | source | states |
|---|---|---|
| Ascii.Lower | app/main.go:51 | The lower-cased name has the same length. Each character is folded on its own. The result has no upper-case letter. |
| Ascii.LowerOfLowerCase | app/main.go:51 | Lower-casing leaves a name that is already lower case unchanged. |
| Ascii.LowerIdempotent | app/main.go:51 | Lower-casing twice gives the same result as lower-casing once. |
| Strings.HasPrefix | app/main.go:52 | True exactly when `s` begins with `prefix`, compared character by character. The rest of `s` follows the prefix. |
| Strings.Join | app/main.go:53 | No values join to "". One value joins to exactly that value. Otherwise the first value comes first and the length is the sum of the value lengths plus one separator per gap. |
| Strings.SplitJoin | app/main.go:53 | For any separator: given at least one value, and no value containing the separator's first character, splitting the joined string at the separator gives back the values in their received order. |
| Strings.SplitJoinSeparatorFree | app/main.go:53 | With a two-character separator whose characters differ, such as ", ", splitting the joined string gives back the values whenever there is at least one value and no value contains the separator itself. Values may still contain either character alone. |
| Env.GetEnv | app/main.go:33-38 | Gives the variable's value when it is set and non-empty, otherwise the fallback. The result is never empty when the fallback is non-empty. |
| Env.GetEnvAfterSet | app/main.go:33-38 | After a variable is set to a non-empty value, reading it gives that value, whatever the fallback. |
| Env.GetEnvAfterUnset | app/main.go:33-38 | After a variable is unset, or set to "", reading it gives the fallback. |
| Env.GetEnvIgnoresOtherKeys | app/main.go:33-38 | Changing a different variable does not change what is read. |
| Env.GetSelfInfo | app/main.go:40-46 | The app name is never empty. It is `APP_NAME` when that is set and non-empty, otherwise "unknown". The host name is the lookup result, or "" when the lookup failed. |
| Headers.ExtractLinkerdHeaders | app/main.go:48-57 | A field is in the result, under its lower-cased name, exactly when that name starts with "l5d-". Its value is its lines joined with ", ". Nothing else is in the result. Every result key is lower case and starts with "l5d-". |
| Headers.ExtractLinkerdHeadersLoop | app/main.go:49-56 | The loop over the received fields, in any visiting order, gives the same map as the filter. |
| Headers.MeshViewUnique | app/main.go:49-56 | The filter's description (kept names, joined values, nothing added) allows only one result map. |
| Headers.NoMeshHeadersGivesEmpty | app/main.go:48-57 | The filter gives the empty map exactly when no field has a lower-cased name starting with "l5d-". This includes the empty header set. |
| Headers.SingleLineMeshHeader | app/main.go:53 | A mesh field received once is reported with exactly its value. |
| Headers.MeshValueSplitsBack | app/main.go:53 | For a mesh field received at least once, with no line containing ", ", splitting its reported value at ", " gives back its received lines. |
| Headers.Get | app/main.go:66 | Gives the first line of the field whose name matches ignoring case. Gives "" when no field matches or the matching field has no lines. |
| Handlers.ErrorReply | app/main.go:86 | An error reply has the given status and a plain-text content type. Its text is the message followed by exactly one newline. |
| Handlers.NotFound | app/main.go:61 | The not-found reply has status 404 and a plain-text content type. Its text is "404 page not found" followed by a newline. It is never a JSON report. |
| Handlers.RootHandler | app/main.go:59-79 | Any path other than exactly "/" gives 404 with no report, and every 404 comes from such a path. On "/" the reply is JSON with this instance's identity. Both caller fields hold the first `l5d-client-id` line, or both are "" without one. The mesh headers are the filter result for the request. |
| Handlers.RootClientIdAgrees | app/main.go:65-75 | If `l5d-client-id` arrived once, the reported mesh header has that value, and both caller fields have it too. |
| Handlers.CallerJsonFields | app/main.go:18-19 | A caller field appears in the JSON exactly when it is non-empty. No other field appears. |
| Handlers.RootWithoutMeshHeaders | app/main.go:17-20 | On "/" with no `l5d-` field, the mesh headers are empty. Neither caller field appears in the JSON, because both are marked `omitempty`. |
| Handlers.EchoServiceUrl | app/main.go:82 | The downstream URL is never empty. It is `ECHO_SERVICE_URL` when that is set and non-empty, otherwise "http://echo-service". |
| Handlers.CallEchoHandler | app/main.go:81-110 | A failed GET, a failed read or a failed parse each give 502, checked in that order. Each has its own message prefix followed by the error text. Every non-JSON reply is 502. A response body that was received is always released. On success the reply's own identity is this instance's. |
| Handlers.CallEchoSucceedsIffAllStepsSucceed | app/main.go:84-106 | The chained call succeeds exactly when all three steps succeed. It then carries the decoded report unchanged. |
| Handlers.CallEchoTransportFailureShortCircuits | app/main.go:84-88 | After a failed GET, the reply does not depend on the read or parse steps. |
| Handlers.CallEchoCarriesDownstreamReport | app/main.go:103-106 | Takes as a hypothesis that the downstream's bytes decode to exactly its own "/" report, because JSON is not modelled. Under that hypothesis the chained reply holds this instance's identity. It also holds the downstream's identity and mesh headers, unchanged. |

## Left out

- `healthHandler`, `main`, route registration, the listening port, `ListenAndServe` and logging. They hold a constant reply and server wiring, with no logic to state.
- The network (`http.Get`, `io.ReadAll`, `resp.Body.Close`) and JSON encoding and decoding. These are the `get`, `readAll` and `unmarshal` inputs of `CallEchoHandler`. The body release is modelled only as the `bodyReleased` flag.
- A GET or body read that never returns. The source sets no timeout on the outbound call, but `get` and `readAll` are total functions, so a hang cannot be represented.
- `os.Getenv` and `os.Hostname` as live calls. They are an immutable environment map and a `Try<string>` host name input. On failure the Go call's host name is "", which is what the model returns.
- Headers.ExtractLinkerdHeaders: requires that no two received names differ only in case. The Go loop over such names would keep one value, picked by map iteration order. Both ordering and canonicalisation are left out. The HTTP server canonicalises names on receipt, so the case does not arise there.
- Handlers.RootHandler: requires the same distinct-names condition, for the same reason.
- Ascii.Lower: folds only 'A' to 'Z'. Go's `strings.ToLower` is Unicode-aware, but header names are ASCII tokens.
- Headers.Get: lower-cases both sides. `Header.Get` instead canonicalises the requested name and looks it up exactly. The two agree on the canonical names the server stores. It also requires the distinct-names condition, which `Header.Get` does not need. Under that condition at most one received name matches, so the first line is well defined.
- A mesh field with no lines and a field with one empty line both report "", because `Join` gives "" for each. The filter cannot tell them apart, so the round-trip lemmas need at least one line.
- Reply bodies on errors are modelled as text plus the newline that the Go error writer appends. Response headers other than the content type are not modelled.

=== FILE: ascii.dfy ===
/** ASCII case folding. HTTP field names are tokens (section 5.1 of RFC 9110),
    so lower-casing them only ever touches the letters 'A' to 'Z'. */
module Ascii {

  predicate IsUpper(c: char) {
    'A' <= c <= 'Z'
  }

  /** True when no character of `s` is an upper-case ASCII letter. */
  predicate IsLowerCase(s: string) {
    forall i :: 0 <= i < |s| ==> !IsUpper(s[i])
  }

  /** Lower-cases one character; anything but 'A'..'Z' is returned as is. */
  function LowerChar(c: char): (r: char)
    ensures !IsUpper(r)
    ensures IsUpper(c) ==> 'a' <= r <= 'z'
    ensures !IsUpper(c) ==> r == c
  {
    if IsUpper(c) then (c as int - 'A' as int + 'a' as int) as char else c
  }

  /** Lower-cases a whole string, character by character. */
  function Lower(s: string): (r: string)
    ensures |r| == |s|
    ensures forall i :: 0 <= i < |s| ==> r[i] == LowerChar(s[i])
    ensures IsLowerCase(r)
  {
    if s == [] then [] else [LowerChar(s[0])] + Lower(s[1..])
  }

  /** A string that is already lower case is its own lower-case form. */
  lemma LowerOfLowerCase(s: string)
    requires IsLowerCase(s)
    ensures Lower(s) == s
  {
  }

  /** Lower-casing is idempotent. */
  lemma LowerIdempotent(s: string)
    ensures Lower(Lower(s)) == Lower(s)
  {
    LowerOfLowerCase(Lower(s));
  }
}

=== FILE: env.dfy ===
/** Runtime configuration and the service's own identity. The process
    environment is an immutable snapshot taken at start-up; the host name
    lookup is an input that may have failed. */
module Env {
  import opened Fallible

  /** Environment variables by name. A variable that is set to the empty
      string reads the same as one that is not set, as with `os.Getenv`. */
  type Environment = map<string, string>

  const AppNameKey := "APP_NAME"
  const AppNameDefault := "unknown"

  /** The value of `key` when it is set to something non-empty, otherwise
      `fallback`. */
  function GetEnv(env: Environment, key: string, fallback: string): (r: string)
    ensures key in env && env[key] != "" ==> r == env[key]
    ensures key !in env || env[key] == "" ==> r == fallback
    ensures fallback != "" ==> r != ""
  {
    if key in env && env[key] != "" then env[key] else fallback
  }

  /** Setting a variable to a non-empty value makes exactly that value read
      back, whatever the fallback. */
  lemma GetEnvAfterSet(env: Environment, key: string, v: string, fallback: string)
    requires v != ""
    ensures GetEnv(env[key := v], key, fallback) == v
  {
  }

  /** Unsetting a variable, or setting it to "", makes the fallback read back. */
  lemma GetEnvAfterUnset(env: Environment, key: string, fallback: string)
    ensures GetEnv(env - {key}, key, fallback) == fallback
    ensures GetEnv(env[key := ""], key, fallback) == fallback
  {
  }

  /** Reading a variable depends on that variable alone. */
  lemma GetEnvIgnoresOtherKeys(env: Environment, key: string, other: string, v: string, fallback: string)
    requires other != key
    ensures GetEnv(env[other := v], key, fallback) == GetEnv(env, key, fallback)
  {
  }

  /** The identity an instance reports about itself. */
  datatype SelfInfo = SelfInfo(appName: string, hostname: string)

  /** Builds the instance's identity from `APP_NAME` (default "unknown") and
      the outcome of the host name lookup; a failed lookup yields "". */
  function GetSelfInfo(env: Environment, hostname: Try<string>): (r: SelfInfo)
    ensures r.appName != ""
    ensures AppNameKey !in env || env[AppNameKey] == "" ==> r.appName == AppNameDefault
    ensures AppNameKey in env && env[AppNameKey] != "" ==> r.appName == env[AppNameKey]
    ensures hostname.Ok? ==> r.hostname == hostname.value
    ensures hostname.Err? ==> r.hostname == ""
  {
    SelfInfo(GetEnv(env, AppNameKey, AppNameDefault), hostname.ValueOr(""))
  }
}

=== FILE: fallible.dfy ===
/** The outcome of a step that may fail with an error description, as a Go
    function returning a value together with an `error` does. */
module Fallible {

  datatype Try<+T> = Ok(value: T) | Err(message: string) {

    /** The value when the step succeeded, otherwise the given default: the
        value Go code sees when it discards the error with `_`. */
    function ValueOr(default: T): T {
      match this
      case Ok(v) => v
      case Err(_) => default
    }
  }
}

=== FILE: handlers.dfy ===
/** The two request handlers that compute something: the identity report
    served on "/" and the chained call served on "/call-echo". Network and
    JSON I/O are left to the caller: a handler returns the reply it would
    write. */
module Handlers {
  import opened Fallible
  import opened Ascii
  import opened Env
  import opened Headers

  /** The caller identity that the mesh proxy injects. In JSON both fields
      are omitted when empty. */
  datatype CallerInfo = CallerInfo(l5dClientId: string, rawHeader: string)

  /** The identity report. */
  datatype Response = Response(self: SelfInfo, caller: CallerInfo, linkerdHeaders: MeshHeaderSet)

  /** The chained-call report: this instance's identity and the report the
      downstream instance returned. */
  datatype CallEchoResponse = CallEchoResponse(self: SelfInfo, echoResponse: Response)

  /** What a handler writes: a JSON body with status 200, or a plain-text
      error with its status code. */
  datatype Reply<T> = Json(body: T) | PlainError(status: int, text: string) {

    function Status(): int {
      if Json? then StatusOK else status
    }

    function ContentType(): string {
      if Json? then "application/json" else "text/plain; charset=utf-8"
    }
  }

  const StatusOK := 200
  const StatusNotFound := 404
  const StatusBadGateway := 502

  const RootPath := "/"
  const ClientIdHeader := "l5d-client-id"
  const EchoUrlKey := "ECHO_SERVICE_URL"
  const EchoUrlDefault := "http://echo-service"

  /** The plain-text error reply (`http.Error`): the status, and the message
      written followed by a newline. */
  function ErrorReply<T>(message: string, status: int): (r: Reply<T>)
    ensures r.PlainError? && r.Status() == status
    ensures r.ContentType() == "text/plain; charset=utf-8"
    ensures |r.text| == |message| + 1 && r.text[..|message|] == message
    ensures r.text[|message|] == '\n'
  {
    PlainError(status, message + "\n")
  }

  const NotFoundMessage := "404 page not found"

  /** The not-found reply (`http.NotFound`): status 404, plain text, the
      standard message and a newline, and never a report. */
  function NotFound<T>(): (r: Reply<T>)
    ensures r.PlainError? && r.Status() == StatusNotFound
    ensures r.ContentType() == "text/plain; charset=utf-8"
    ensures |r.text| == |NotFoundMessage| + 1 && r.text[..|NotFoundMessage|] == NotFoundMessage
    ensures r.text[|NotFoundMessage|] == '\n'
  {
    ErrorReply(NotFoundMessage, StatusNotFound)
  }

  /** The names of the caller fields present in the JSON encoding: both
      fields are marked `omitempty`. */
  function CallerJsonFields(c: CallerInfo): (fields: set<string>)
    ensures fields <= {"l5d_client_id", "raw_header"}
    ensures "l5d_client_id" in fields <==> c.l5dClientId != ""
    ensures "raw_header" in fields <==> c.rawHeader != ""
  {
    (if c.l5dClientId != "" then {"l5d_client_id"} else {})
    + (if c.rawHeader != "" then {"raw_header"} else {})
  }

  lemma ClientIdHeaderIsLowerCase()
    ensures Lower(ClientIdHeader) == ClientIdHeader
  {
    // Showing the literal lower case one character at a time keeps this
    // proof within the resource limit; unfolding Lower on the whole literal
    // does not.
    forall i | 0 <= i < |ClientIdHeader| ensures !IsUpper(ClientIdHeader[i]) {
    }
    LowerOfLowerCase(ClientIdHeader);
  }

  /** The identity report for a request to `path` carrying headers `h`. Any
      path but exactly "/" is not found. On "/", both caller fields hold the
      first `l5d-client-id` line (case-insensitively), or "" without one,
      and the mesh headers are the filter of all received fields. */
  function RootHandler(path: string, env: Environment, hostname: Try<string>, h: Header): (r: Reply<Response>)
    requires DistinctFolded(h)
    ensures path != RootPath <==> r.Status() == StatusNotFound
    ensures path != RootPath ==> r == NotFound()
    ensures path == RootPath ==> r.Json? && r.ContentType() == "application/json"
    ensures path == RootPath ==> r.body.self == GetSelfInfo(env, hostname)
    ensures path == RootPath ==> r.body.caller.l5dClientId == r.body.caller.rawHeader
    ensures path == RootPath ==> forall k :: k in h && Lower(k) == ClientIdHeader && |h[k]| > 0 ==>
      r.body.caller.l5dClientId == h[k][0]
    ensures path == RootPath && (forall k :: k in h && Lower(k) == ClientIdHeader ==> |h[k]| == 0) ==>
      r.body.caller == CallerInfo("", "")
    ensures path == RootPath ==> IsMeshViewOf(h, r.body.linkerdHeaders)
  {
    if path != RootPath then NotFound()
    else
      ClientIdHeaderIsLowerCase();
      var linkerdHeaders := ExtractLinkerdHeaders(h);
      var clientId := Get(h, ClientIdHeader);
      Json(Response(GetSelfInfo(env, hostname), CallerInfo(clientId, clientId), linkerdHeaders))
  }

  /** The client identity in the caller record and the reported
      `l5d-client-id` mesh header agree whenever that header arrived once. */
  lemma RootClientIdAgrees(env: Environment, hostname: Try<string>, h: Header, k: string)
    requires DistinctFolded(h)
    requires k in h && Lower(k) == ClientIdHeader && |h[k]| == 1
    ensures var r := RootHandler(RootPath, env, hostname, h);
      && ClientIdHeader in r.body.linkerdHeaders
      && r.body.linkerdHeaders[ClientIdHeader] == r.body.caller.l5dClientId == r.body.caller.rawHeader == h[k][0]
  {
    SingleLineMeshHeader(h, k);
  }

  /** A request to "/" without any mesh field gets an empty mesh header map
      and a caller record whose JSON encoding has no fields. */
  lemma RootWithoutMeshHeaders(env: Environment, hostname: Try<string>, h: Header)
    requires DistinctFolded(h)
    requires forall k :: k in h ==> !IsMeshName(Lower(k))
    ensures var r := RootHandler(RootPath, env, hostname, h);
      && r.body.linkerdHeaders == map[]
      && CallerJsonFields(r.body.caller) == {}
  {
    NoMeshHeadersGivesEmpty(h);
    assert IsMeshName(ClientIdHeader);
  }

  /** The URL of the downstream instance: `ECHO_SERVICE_URL`, or
      "http://echo-service" when unset or empty. */
  function EchoServiceUrl(env: Environment): (url: string)
    ensures url != ""
    ensures EchoUrlKey !in env || env[EchoUrlKey] == "" ==> url == EchoUrlDefault
    ensures EchoUrlKey in env && env[EchoUrlKey] != "" ==> url == env[EchoUrlKey]
  {
    GetEnv(env, EchoUrlKey, EchoUrlDefault)
  }

  /** The outcome of a chained call: the reply, and whether a received
      response body was released. */
  datatype EchoExchange = EchoExchange(reply: Reply<CallEchoResponse>, bodyReleased: bool)

  /** The chained call. `get` is the outbound GET (yielding a response body
      stream of type `S`), `readAll` reads a stream to its bytes (of type `B`)
      and `unmarshal` decodes bytes as an identity report. The steps run in
      that order; the first that fails ends the request with 502 and its own
      message. A body obtained from `get` is released on every path after. */
  function CallEchoHandler<S, B>(
    env: Environment, hostname: Try<string>,
    get: string -> Try<S>, readAll: S -> Try<B>, unmarshal: B -> Try<Response>
  ): (x: EchoExchange)
    ensures var fetched := get(EchoServiceUrl(env));
      && x.bodyReleased == fetched.Ok?
      && (fetched.Err? ==>
            x.reply == ErrorReply("Failed to call echo-service: " + fetched.message, StatusBadGateway))
      && (fetched.Ok? && readAll(fetched.value).Err? ==>
            x.reply == ErrorReply("Failed to read echo response: " + readAll(fetched.value).message, StatusBadGateway))
      && (fetched.Ok? && readAll(fetched.value).Ok? && unmarshal(readAll(fetched.value).value).Err? ==>
            x.reply == ErrorReply("Failed to parse echo response: " + unmarshal(readAll(fetched.value).value).message, StatusBadGateway))
    ensures x.reply.Json? <==> x.reply.Status() == StatusOK
    ensures x.reply.PlainError? ==> x.reply.Status() == StatusBadGateway
    ensures x.reply.Json? ==> x.reply.body.self == GetSelfInfo(env, hostname)
  {
    match get(EchoServiceUrl(env))
    case Err(e) =>
      EchoExchange(ErrorReply("Failed to call echo-service: " + e, StatusBadGateway), false)
    case Ok(stream) =>
      var reply :=
        match readAll(stream)
        case Err(e) => ErrorReply("Failed to read echo response: " + e, StatusBadGateway)
        case Ok(body) =>
          match unmarshal(body)
          case Err(e) => ErrorReply("Failed to parse echo response: " + e, StatusBadGateway)
          case Ok(echoResp) => Json(CallEchoResponse(GetSelfInfo(env, hostname), echoResp));
      EchoExchange(reply, true)
  }

  /** The chained call succeeds exactly when all three steps succeed, and then
      carries the decoded downstream report unchanged. */
  lemma CallEchoSucceedsIffAllStepsSucceed<S, B>(
    env: Environment, hostname: Try<string>,
    get: string -> Try<S>, readAll: S -> Try<B>, unmarshal: B -> Try<Response>)
    ensures var x := CallEchoHandler(env, hostname, get, readAll, unmarshal);
      var fetched := get(EchoServiceUrl(env));
      && (x.reply.Json? <==>
            fetched.Ok? && readAll(fetched.value).Ok? && unmarshal(readAll(fetched.value).value).Ok?)
      && (x.reply.Json? ==> x.reply.body.echoResponse == unmarshal(readAll(fetched.value).value).value)
  {
  }

  /** A failed GET decides the reply on its own: the later steps are never
      consulted. */
  lemma CallEchoTransportFailureShortCircuits<S, B>(
    env: Environment, hostname: Try<string>, get: string -> Try<S>,
    readAll1: S -> Try<B>, unmarshal1: B -> Try<Response>,
    readAll2: S -> Try<B>, unmarshal2: B -> Try<Response>)
    requires get(EchoServiceUrl(env)).Err?
    ensures CallEchoHandler(env, hostname, get, readAll1, unmarshal1)
         == CallEchoHandler(env, hostname, get, readAll2, unmarshal2)
  {
  }

  /** One hop of propagation: when the downstream instance answered its "/"
      with a report, the chained reply carries that report, including the
      downstream's own identity, next to this instance's identity. */
  lemma CallEchoCarriesDownstreamReport<S, B>(
    env: Environment, hostname: Try<string>,
    get: string -> Try<S>, readAll: S -> Try<B>, unmarshal: B -> Try<Response>,
    downEnv: Environment, downHostname: Try<string>, downHeaders: Header)
    requires DistinctFolded(downHeaders)
    requires get(EchoServiceUrl(env)).Ok?
    requires readAll(get(EchoServiceUrl(env)).value).Ok?
    requires unmarshal(readAll(get(EchoServiceUrl(env)).value).value)
          == Ok(RootHandler(RootPath, downEnv, downHostname, downHeaders).body)
    ensures var x := CallEchoHandler(env, hostname, get, readAll, unmarshal);
      && x.reply.Json?
      && x.reply.body.self == GetSelfInfo(env, hostname)
      && x.reply.body.echoResponse.self == GetSelfInfo(downEnv, downHostname)
      && IsMeshViewOf(downHeaders, x.reply.body.echoResponse.linkerdHeaders)
  {
  }
}

=== FILE: headers.dfy ===
/** Inbound request headers and the mesh header filter. */
module Headers {
  import opened Ascii
  import opened Strings

  /** Field name to the field lines received under it, in received order. */
  type Header = map<string, seq<string>>

  /** Lower-case mesh field name to its combined field value. */
  type MeshHeaderSet = map<string, string>

  const MeshPrefix := "l5d-"

  /** Separator used to combine several field lines into one value
      (section 5.3 of RFC 9110). */
  const ValueSeparator := ", "

  /** Field names are compared case-insensitively (section 5.1 of RFC 9110):
      no two names of `h` differ only in case. The HTTP server canonicalises
      names on receipt, which gives this. */
  ghost predicate DistinctFolded(h: Header) {
    forall a, b :: a in h && b in h && Lower(a) == Lower(b) ==> a == b
  }

  predicate IsMeshName(name: string) {
    HasPrefix(name, MeshPrefix)
  }

  /** `m` is exactly the mesh view of `h`: every received field whose
      lower-cased name is a mesh name appears under that name with its
      lines joined, and nothing else appears. */
  ghost predicate IsMeshViewOf(h: Header, m: MeshHeaderSet) {
    && (forall k :: k in h ==> (Lower(k) in m <==> IsMeshName(Lower(k))))
    && (forall k :: k in h && IsMeshName(Lower(k)) ==> m[Lower(k)] == Join(h[k], ValueSeparator))
    && (forall n :: n in m ==> exists k :: k in h && Lower(k) == n)
  }

  /** The mesh view of a header set is unique: two maps that both satisfy
      the description are equal. */
  lemma {:induction false} MeshViewUnique(h: Header, m1: MeshHeaderSet, m2: MeshHeaderSet)
    requires IsMeshViewOf(h, m1) && IsMeshViewOf(h, m2)
    ensures m1 == m2
  {
    forall n | n in m1 ensures n in m2 && m1[n] == m2[n] {
      var k :| k in h && Lower(k) == n;
    }
    forall n | n in m2 ensures n in m1 {
      var k :| k in h && Lower(k) == n;
    }
  }

  /** Keeps the received fields whose lower-cased name starts with "l5d-",
      under that lower-cased name, with their lines joined by ", ". */
  function ExtractLinkerdHeaders(h: Header): (m: MeshHeaderSet)
    requires DistinctFolded(h)
    ensures IsMeshViewOf(h, m)
    ensures forall n :: n in m ==> IsLowerCase(n) && IsMeshName(n)
  {
    map k | k in h && IsMeshName(Lower(k)) :: Lower(k) := Join(h[k], ValueSeparator)
  }

  /** The same filter written as the loop over the received fields that the
      handler runs: fields are visited in an unspecified order and each mesh
      field is stored under its lower-cased name. */
  method ExtractLinkerdHeadersLoop(h: Header) returns (m: MeshHeaderSet)
    requires DistinctFolded(h)
    ensures IsMeshViewOf(h, m)
    ensures m == ExtractLinkerdHeaders(h)
  {
    m := map[];
    var todo := h.Keys;
    while todo != {}
      invariant todo <= h.Keys
      invariant forall k :: k in h && k !in todo ==> (Lower(k) in m <==> IsMeshName(Lower(k)))
      invariant forall k :: k in h && k !in todo && IsMeshName(Lower(k)) ==> m[Lower(k)] == Join(h[k], ValueSeparator)
      invariant forall n :: n in m ==> exists k :: k in h && k !in todo && Lower(k) == n
      decreases todo
    {
      var name :| name in todo;
      var lowerName := Lower(name);
      if HasPrefix(lowerName, MeshPrefix) {
        m := m[lowerName := Join(h[name], ValueSeparator)];
      }
      todo := todo - {name};
    }
    MeshViewUnique(h, m, ExtractLinkerdHeaders(h));
  }

  /** A header set without mesh fields (the empty one included) yields the
      empty map, and only such a set does. */
  lemma NoMeshHeadersGivesEmpty(h: Header)
    requires DistinctFolded(h)
    ensures ExtractLinkerdHeaders(h) == map[] <==> forall k :: k in h ==> !IsMeshName(Lower(k))
  {
    var m := ExtractLinkerdHeaders(h);
    if forall k :: k in h ==> !IsMeshName(Lower(k)) {
      assert m.Keys == {};
    }
  }

  /** A mesh field received once is reported with exactly its value. */
  lemma SingleLineMeshHeader(h: Header, k: string)
    requires DistinctFolded(h)
    requires k in h && IsMeshName(Lower(k)) && |h[k]| == 1
    ensures Lower(k) in ExtractLinkerdHeaders(h)
    ensures ExtractLinkerdHeaders(h)[Lower(k)] == h[k][0]
  {
  }

  /** For a field received at least once, with no line containing ", ",
      splitting its reported value at ", " recovers its lines in order. A
      field with no lines reports "", as one with a single empty line does. */
  lemma MeshValueSplitsBack(h: Header, k: string)
    requires DistinctFolded(h)
    requires k in h && IsMeshName(Lower(k)) && |h[k]| > 0
    requires NoneContains(h[k], ValueSeparator)
    ensures Split(ExtractLinkerdHeaders(h)[Lower(k)], ValueSeparator) == h[k]
  {
    SplitJoinSeparatorFree(h[k], ValueSeparator);
  }

  /** `Header.Get`: the first line received under the field named `name`,
      compared case-insensitively, or "" when there is none. */
  function Get(h: Header, name: string): (v: string)
    requires DistinctFolded(h)
    ensures forall k :: k in h && Lower(k) == Lower(name) ==> v == (if |h[k]| > 0 then h[k][0] else "")
    ensures (forall k :: k in h ==> Lower(k) != Lower(name)) ==> v == ""
  {
    var folded := map k | k in h :: Lower(k) := h[k];
    var key := Lower(name);
    if key in folded && |folded[key]| > 0 then folded[key][0] else ""
  }
}

=== FILE: strings.dfy ===
/** The string operations of Go's `strings` package that the service uses,
    plus `Split`. `Split` undoes `Join` on at least one element when no
    element contains the separator's first character, or, for a
    two-character separator with distinct characters such as ", ", when no
    element contains the separator itself. */
module Strings {

  /** `strings.HasPrefix`. */
  function HasPrefix(s: string, prefix: string): (b: bool)
    ensures b <==> |prefix| <= |s| && forall i :: 0 <= i < |prefix| ==> s[i] == prefix[i]
    ensures b ==> s == prefix + s[|prefix|..]
  {
    |prefix| <= |s| && s[..|prefix|] == prefix
  }

  /** Sum of the lengths of the strings in `xs`. */
  function TotalLength(xs: seq<string>): nat {
    if xs == [] then 0 else |xs[0]| + TotalLength(xs[1..])
  }

  /** `strings.Join`: the elements of `xs` in order, with `sep` between
      neighbours; no elements give the empty string. */
  function Join(xs: seq<string>, sep: string): (r: string)
    ensures |xs| == 0 ==> r == ""
    ensures |xs| == 1 ==> r == xs[0]
    ensures |xs| > 0 ==> HasPrefix(r, xs[0])
    ensures |xs| > 0 ==> |r| == TotalLength(xs) + (|xs| - 1) * |sep|
  {
    if |xs| == 0 then ""
    else if |xs| == 1 then xs[0]
    else xs[0] + sep + Join(xs[1..], sep)
  }

  /** `sep` occurs in `s` starting at index `j`. */
  predicate OccursAt(s: string, sep: string, j: nat) {
    j + |sep| <= |s| && s[j..j + |sep|] == sep
  }

  /** The first index at or after `from` where `sep` occurs in `s`. */
  function FindFrom(s: string, sep: string, from: nat): (r: Search)
    requires |sep| > 0 && from <= |s|
    ensures r.Found? ==> from <= r.index && OccursAt(s, sep, r.index)
    ensures r.Found? ==> forall j: nat :: from <= j < r.index ==> !OccursAt(s, sep, j)
    ensures r.Missing? ==> forall j: nat :: from <= j ==> !OccursAt(s, sep, j)
    decreases |s| - from
  {
    if from + |sep| > |s| then Missing
    else if OccursAt(s, sep, from) then Found(from)
    else FindFrom(s, sep, from + 1)
  }

  /** Where a search for a separator ended. */
  datatype Search = Missing | Found(index: nat)

  /** Cuts `s` at every occurrence of `sep`, leftmost first. */
  function Split(s: string, sep: string): (r: seq<string>)
    requires |sep| > 0
    ensures |r| > 0
    decreases |s|
  {
    match FindFrom(s, sep, 0)
    case Missing => [s]
    case Found(i) => [s[..i]] + Split(s[i + |sep|..], sep)
  }

  /** No element of `xs` contains the character `c`. */
  predicate FreeOf(xs: seq<string>, c: char) {
    forall i :: 0 <= i < |xs| ==> c !in xs[i]
  }

  lemma {:induction false} FindMissingInFreeString(s: string, sep: string, from: nat)
    requires |sep| > 0 && from <= |s|
    requires sep[0] !in s
    ensures FindFrom(s, sep, from).Missing?
    decreases |s| - from
  {
    if from + |sep| <= |s| {
      assert s[from..from + |sep|][0] == s[from];
      FindMissingInFreeString(s, sep, from + 1);
    }
  }

  lemma {:induction false} FindAfterFreeString(x: string, sep: string, t: string, from: nat)
    requires |sep| > 0 && from <= |x|
    requires sep[0] !in x
    ensures FindFrom(x + sep + t, sep, from) == Found(|x|)
    decreases |x| - from
  {
    var s := x + sep + t;
    if from < |x| {
      assert s[from..from + |sep|][0] == x[from];
      FindAfterFreeString(x, sep, t, from + 1);
    } else {
      assert s[from..from + |sep|] == sep;
    }
  }

  /** The statement for an arbitrary separator: joining at least one element
      is lossless when no element contains the separator's first character.
      For ", " the stronger `SplitJoinSeparatorFree` below applies. */
  lemma {:induction false} SplitJoin(xs: seq<string>, sep: string)
    requires |xs| > 0 && |sep| > 0
    requires FreeOf(xs, sep[0])
    ensures Split(Join(xs, sep), sep) == xs
    decreases |xs|
  {
    if |xs| == 1 {
      assert sep[0] !in xs[0];
      FindMissingInFreeString(xs[0], sep, 0);
    } else {
      var x, rest := xs[0], Join(xs[1..], sep);
      var s := x + sep + rest;
      assert sep[0] !in x;
      FindAfterFreeString(x, sep, rest, 0);
      assert s[..|x|] == x;
      assert s[|x| + |sep|..] == rest;
      assert FreeOf(xs[1..], sep[0]) by {
        forall i | 0 <= i < |xs[1..]| ensures sep[0] !in xs[1..][i] {
          assert xs[1..][i] == xs[i + 1];
        }
      }
      SplitJoin(xs[1..], sep);
      assert xs == [x] + xs[1..];
    }
  }

  /** No element of `xs` contains `sep` anywhere. */
  predicate NoneContains(xs: seq<string>, sep: string) {
    forall i, j: nat :: 0 <= i < |xs| && j <= |xs[i]| ==> !OccursAt(xs[i], sep, j)
  }

  lemma {:induction false} FindAfterSeparatorFreeString(x: string, sep: string, t: string, from: nat)
    requires |sep| == 2 && sep[0] != sep[1] && from <= |x|
    requires forall j: nat :: !OccursAt(x, sep, j)
    ensures FindFrom(x + sep + t, sep, from) == Found(|x|)
    decreases |x| - from
  {
    var s := x + sep + t;
    if from + 2 <= |x| {
      assert s[from..from + 2] == x[from..from + 2];
      assert !OccursAt(x, sep, from);
      FindAfterSeparatorFreeString(x, sep, t, from + 1);
    } else if from < |x| {
      assert s[from + 1] == sep[0];
      assert s[from..from + 2][1] != sep[1];
      FindAfterSeparatorFreeString(x, sep, t, from + 1);
    } else {
      assert s[from..from + |sep|] == sep;
    }
  }

  /** For a two-character separator whose characters differ, such as ", ",
      joining at least one element is lossless as long as no element
      contains the separator itself; elements may contain either of its
      characters. No elements join to "", as one empty element does. */
  lemma {:induction false} SplitJoinSeparatorFree(xs: seq<string>, sep: string)
    requires |xs| > 0 && |sep| == 2 && sep[0] != sep[1]
    requires NoneContains(xs, sep)
    ensures Split(Join(xs, sep), sep) == xs
    decreases |xs|
  {
    if |xs| == 1 {
      assert forall j: nat :: !OccursAt(xs[0], sep, j) by {
        forall j: nat ensures !OccursAt(xs[0], sep, j) {
          if j <= |xs[0]| { assert !OccursAt(xs[0], sep, j); }
        }
      }
      assert FindFrom(xs[0], sep, 0).Missing?;
    } else {
      var x, rest := xs[0], Join(xs[1..], sep);
      var s := x + sep + rest;
      assert forall j: nat :: !OccursAt(x, sep, j) by {
        forall j: nat ensures !OccursAt(x, sep, j) {
          if j <= |x| { assert !OccursAt(xs[0], sep, j); }
        }
      }
      FindAfterSeparatorFreeString(x, sep, rest, 0);
      assert s[..|x|] == x;
      assert s[|x| + |sep|..] == rest;
      assert NoneContains(xs[1..], sep) by {
        forall i: nat, j: nat | 0 <= i < |xs[1..]| && j <= |xs[1..][i]| ensures !OccursAt(xs[1..][i], sep, j) {
          assert xs[1..][i] == xs[i + 1];
        }
      }
      SplitJoinSeparatorFree(xs[1..], sep);
      assert xs == [x] + xs[1..];
    }
  }
}
